=== FILE: README.md ===
# Two-direction traffic light controller, modelled in Dafny

This project models the core of a smart traffic light. Two cameras each yield a vehicle count per
tick. A controller decides which of two directions holds green and drives a signal output with a
red, a yellow and a green lamp per direction.

- `directions.dfy` (`Directions`): the two directions, `Other`, and the names the output uses as keys.
- `signal.dfy` (`Signal`): the LED controller. It covers the last-commanded-state table that
  `get_state` reads back, with its Red default for unknown names. It also covers the six-pixel
  buffer: direction 1 uses pixels 0-2 and every other name uses pixels 3-5, in the order red,
  yellow, green. Also modelled: `set_color`, `set_red`, `set_green`, `set_yellow`, `turn_off_all`
  and the `start`/`stop` lifecycle.
- `detector.dfy` (`Detector`): one vehicle detector. The camera and the OpenCV motion pipeline are
  abstracted to a `FrameRead`: a failed read, a failing pipeline, or the list of contour areas
  found. The count is the number of areas strictly above 1000. Also modelled: the fallbacks to
  zero, the `start`/`stop` lifecycle and the simulated test reading.
- `arbiter.dfy` (`Arbiter`): one tick of the control loop as a pure function
  `Step(cfg, state, v1, v2, now)`. It returns the next `(green direction, start time)` and the
  light commands, in the order they are issued. Time is an explicit natural-number parameter.
- `controller.dfy` (`Controller`): the whole controller and its invariant.
  - Its state is the running flag, the arbiter state, the output and both detectors.
  - `Counts` chooses between camera counts and simulated counts. `TickOf` is one poll-decide-act
    tick. `RunTicks` runs a sequence of ticks and collects the light-change event log.
  - `ControlLoop` is the loop's life: Reds on entry, the ticks, Reds on exit. `Start` and `Stop`
    are the lifecycle.
  - The invariant: the output shows Green exactly for the direction the arbiter holds, and Red
    for the other. So at most one direction is Green, including between the two commands of a
    handover.

## Model

| member | source | states |
|---|---|---|
| `Arbiter.Step` | traffic_control/traffic_controller.py:117-154 | a well-formed state stays well-formed (a start time is recorded exactly when a direction is green); a tick issues at most two commands; any Red comes before any Green; a Red is only for the held direction; a Green makes that direction the held one from `now`; no command means no state change |
| `Arbiter.SwitchToGreen` | traffic_control/traffic_controller.py:168-190 | the direction becomes the held one with start time `now`, the state is well formed, and the single command is its Green |
| `Arbiter.SwitchToRed` | traffic_control/traffic_controller.py:192-212 | the held direction and start time are both cleared, and the single command is the direction's Red |
| `Arbiter.Release` | traffic_control/traffic_controller.py:133-154 | the released direction no longer holds green and its Red is the first command; the other direction becomes the held one iff it has vehicles, then from `now` with the commands Red then Green; otherwise the only command is the Red |
| `Arbiter.IdleStep` | traffic_control/traffic_controller.py:117-122 | when Idle, direction 1 goes green at `now` if it has vehicles; otherwise direction 2 does if it has vehicles; with both counts zero nothing changes and nothing is commanded |
| `Arbiter.TieBreakFavoursOne` | traffic_control/traffic_controller.py:117-122 | when Idle with vehicles in both directions, direction 1 is greened and direction 2 is not |
| `Arbiter.MinGreenFloor` | traffic_control/traffic_controller.py:126-130 | while less than the minimum green time has elapsed, a tick changes neither state nor lights, whatever the counts |
| `Arbiter.ReleaseRule` | traffic_control/traffic_controller.py:130-154 | the held direction gets Red exactly when the minimum has elapsed and either it has no vehicles or the maximum has elapsed; the Red is the first command; then the other direction is greened at `now` iff it has vehicles, otherwise the result is Idle; if no release happens, nothing changes |
| `Arbiter.HoldWhileBusy` | traffic_control/traffic_controller.py:138-154 | between the minimum and the maximum, a held direction that still has vehicles keeps green with no command |
| `Arbiter.MaxGreenForcesRelease` | traffic_control/traffic_controller.py:138-142 | once both the minimum and the maximum have elapsed, the held direction loses green whatever its count |
| `Arbiter.MaxBelowMinHoldsUntilMin` | traffic_control/traffic_controller.py:130-142 | when the maximum is below the minimum, a tick whose elapsed time is at least the maximum but below the minimum changes nothing, whatever the counts: the maximum is only tested once the minimum has elapsed |
| `Arbiter.ForcedReleaseThenRegreen` | traffic_control/traffic_controller.py:117-142 | a forced switch-out with nobody waiting the other way goes Idle, and the same direction is greened again on the next tick |
| `Arbiter.SustainedThenDrop` | traffic_control/traffic_controller.py:117-137 | with minimum 10 and maximum 60, direction 1 alone with vehicles goes green at 0, is still green at 15, and goes Idle with a Red on the first tick its count is zero |
| `Arbiter.StartTimeDiscipline` | traffic_control/traffic_controller.py:168-201 | the start time becomes `now` whenever a Green is commanded; it is cleared by a lone Red and unchanged when nothing is commanded; a Red for a direction comes at least the minimum after its recorded start |
| `Controller.InvMeansExclusive` | traffic_control/traffic_controller.py:168-201 | when the output agrees with the arbiter, at most one direction is Green; the arbiter holds `d` iff `d` shows Green and the other shows Red; when Idle, both show Red |
| `Controller.Apply` | traffic_control/traffic_controller.py:168-201 | a Red or Green command sets only its own direction's readback and leaves the other direction's unchanged |
| `Controller.ApplyAll` | traffic_control/traffic_controller.py:168-201 | sending a sequence of commands in order leaves the final command's direction reading back that command's state (Red for a Red command, Green for a Green one), leaves every direction no command names unchanged, and keeps the output's activity |
| `Controller.ApplyAllLastNaming` | traffic_control/traffic_controller.py:168-201 | a direction named by some command ends showing the state of the last command naming it, Red after a Red command and Green after a Green one |
| `Controller.ApplyAllSnoc` | traffic_control/traffic_controller.py:168-201 | sending one more command gives the same output as sending the others and then that command, so commands take effect one after another |
| `Controller.StepPreservesInv` | traffic_control/traffic_controller.py:132-154 | every tick keeps the output agreeing with the arbiter, and no point in the tick's command sequence shows two Greens: the outgoing Red is sent before the incoming Green |
| `Controller.TickKeepsLog` | traffic_control/traffic_controller.py:168-212 | each tick keeps the light-change log rule: every Red follows directly the Green of the same direction, logged at least the minimum earlier; while a direction holds, the last event is the Green that started the hold |
| `Controller.OneTickKeepsLog` | traffic_control/traffic_controller.py:101-157 | one loop iteration from an agreeing state keeps the agreement, and the events it logs extend a log that follows the log rule and ends with the held direction's Green into one that still does |
| `Controller.RunKeepsInv` | traffic_control/traffic_controller.py:101-154 | over any sequence of ticks from an agreeing state, the agreement holds at the end; appended to any earlier event log that follows the log rule and ends with the Green of the held direction, the run's events keep the log rule, and the log still ends with the Green of the direction then held |
| `Controller.FreshSessionSafe` | traffic_control/traffic_controller.py:93-166 | for a newly built and started controller, the entry Reds establish the invariant; after every prefix of ticks at most one direction is Green, the output agrees with the arbiter, and every logged switch-out is at least the minimum after its switch-in; the loop ends with both Red |
| `Controller.TickOf` | traffic_control/traffic_controller.py:103-157 | one loop iteration keeps the output agreeing with the arbiter and leaves the running flag, the detectors and the output's activity unchanged |
| `Controller.RunTicks` | traffic_control/traffic_controller.py:101-161 | the ticks of the loop keep the output agreeing with the arbiter, emit at most two events per tick, and leave the running flag, the detectors and the output's activity unchanged |
| `Controller.BothRed` | traffic_control/traffic_controller.py:97-99 | both directions read back Red, and nothing but the output changes |
| `Controller.ControlLoop` | traffic_control/traffic_controller.py:163-165 | whatever state the ticks end in, the loop leaves both directions Red |
| `Controller.Counts` | traffic_control/traffic_controller.py:103-111 | with no active camera, both counts come from the simulated reading and are at most 1; with an active camera, each camera that is active, holds a capture and gets contours reports exactly its number of contours above area 1000; an inactive camera, a missing capture, a failed read and a failed pipeline each read 0; with an active camera, each count is at most its frame's contour count |
| `Controller.New` | traffic_control/traffic_controller.py:19-44 | a new controller is not running, holds nothing green, and its cameras and output are inactive |
| `Controller.Start` | traffic_control/traffic_controller.py:46-75 | when already running, nothing changes; otherwise it is running, the output is active with both Red, a camera is active if it opened (or already was), and the arbiter state is kept |
| `Controller.Stop` | traffic_control/traffic_controller.py:77-91 | afterwards the controller is not running, both cameras and the output are inactive, and an output that was active shows Off for both directions |
| `Controller.StopIdempotent` | traffic_control/traffic_controller.py:77-91 | a second stop changes nothing |
| `Controller.FirstSessionHoldsOne` | traffic_control/traffic_controller.py:40-91 | a first session with one tick that simulates a vehicle for direction 1 ends stopped, with the cameras inactive, still holding direction 1 from time 0 |
| `Controller.RunOneTick` | traffic_control/traffic_controller.py:101-157 | a run of one reading ends in the state that one loop iteration produces |
| `Controller.RestartKeepsStaleHold` | traffic_control/traffic_controller.py:40-75 | starting the same controller object again keeps the previous run's held direction while the output restarts with both Red; one tick later the arbiter still holds direction 1 while its light shows Red |
| `Signal.New` | traffic_control/led_controller.py:38-63 | a new output is inactive with no strip, and both directions read back Red |
| `Signal.LampBase` | traffic_control/led_controller.py:54-57 | direction 1's block starts at pixel 0; every other name's block starts at pixel 3 |
| `Signal.GetState` | traffic_control/led_controller.py:210-220 | the read-back is the stored state for a name in the table, and Red for any other name |
| `Signal.SetColor` | traffic_control/led_controller.py:105-119 | on a driven strip, only the addressed pixel changes; in simulation mode nothing changes |
| `Signal.SetRed` | traffic_control/led_controller.py:121-143 | the name reads back Red and every other name is unchanged; on a driven strip of at least six pixels, the block shows only its red lamp in red and no pixel outside it changes; in simulation mode the pixels are untouched |
| `Signal.SetGreen` | traffic_control/led_controller.py:145-167 | the name reads back Green and every other name is unchanged; on a driven strip of at least six pixels the block shows only its green lamp in green and no pixel outside it changes |
| `Signal.SetYellow` | traffic_control/led_controller.py:169-191 | the name reads back Yellow and every other name is unchanged; on a driven strip of at least six pixels the block shows only its yellow lamp in yellow and no pixel outside it changes |
| `Signal.TurnOffAll` | traffic_control/led_controller.py:193-220 | both directions read back Off, and any other name reads back the Red default; on a driven strip every pixel is dark |
| `Signal.Start` | traffic_control/led_controller.py:65-93 | the output is active; a strip exists on hardware; both directions read back Red, and on a driven strip both red lamps are lit with the others dark |
| `Signal.Stop` | traffic_control/led_controller.py:95-103 | the output is inactive afterwards; if it was active, both directions read back Off and, on a driven strip, every pixel is dark; if it was not, nothing changes; the pixel buffer keeps its length |
| `Signal.StopIdempotent` | traffic_control/led_controller.py:95-103 | a second stop changes nothing |
| `Detector.New` | traffic_control/vehicle_detector.py:16-39 | a new detector is inactive and holds no capture |
| `Detector.Start` | traffic_control/vehicle_detector.py:41-63 | it returns true iff the camera opened; a capture object is held either way; it becomes active when the camera opened, and otherwise its activity is unchanged |
| `Detector.FailedStartStaysInactive` | traffic_control/vehicle_detector.py:48-51 | a fresh detector whose camera does not open returns false and stays inactive |
| `Detector.Stop` | traffic_control/vehicle_detector.py:65-71 | afterwards the detector is inactive and holds no capture |
| `Detector.StopIdempotent` | traffic_control/vehicle_detector.py:65-71 | a second stop changes nothing |
| `Detector.LargeContours` | traffic_control/vehicle_detector.py:129-140 | every area strictly above 1000 is kept exactly as many times as it occurs in the frame, and no other area is kept; so there are never more kept contours than contours |
| `Detector.VehicleCount` | traffic_control/vehicle_detector.py:129-140 | the count never exceeds the number of contours, and is positive whenever some contour's area is above 1000 |
| `Detector.LargeContoursSnoc` | traffic_control/vehicle_detector.py:129-140 | one more contour adds one to the kept list exactly when its area is above 1000 |
| `Detector.VehicleCountExtremes` | traffic_control/vehicle_detector.py:129-140 | the count equals the number of contours iff every area is above 1000, and is zero iff none is |
| `Detector.CountVehicles` | traffic_control/vehicle_detector.py:129-140 | the counting loop returns the number of contours with area above 1000, never more than the number of contours |
| `Detector.Detect` | traffic_control/vehicle_detector.py:73-97 | 0 when the detector is inactive or holds no capture, and 0 when the read or the pipeline fails; otherwise the count of large contours, at most the number of contours |
| `Detector.TestDetection` | traffic_control/vehicle_detector.py:146-154 | the simulated reading is always 0 or 1, and is 1 for exactly one of the four choices |

## Notes on the code as written

- The code does not check that the minimum green time is at most the maximum. The maximum is only
  tested once the minimum has elapsed, so the held direction is released on the first tick at
  which both `minGreen` and `maxGreen` have elapsed (`Arbiter.MaxGreenForcesRelease`,
  `Arbiter.MaxBelowMinHoldsUntilMin`). Ticks are polled, so the hold can last past that point
  until the next tick.
- After a forced switch-out with no vehicles waiting the other way, the same direction can be
  greened again on the next tick (`Arbiter.ForcedReleaseThenRegreen`).
- A failed camera read yields the count 0, not a separate "unavailable" value. When either camera
  is active, an inactive one therefore reads 0 rather than a simulated value.
- Stopping does not clear the held direction and its start time. Starting the same controller
  object again can leave the arbiter holding a direction whose light is Red
  (`Controller.RestartKeepsStaleHold`). The web layer never restarts an object: it builds a new
  controller for every start (traffic_control/views.py:91) and drops it on stop (:124). So the
  safety results are stated for a newly built controller (`Controller.FreshSessionSafe`).
- The event log of a run stands for the light-change events that the switch helpers record. The
  Reds on loop entry and exit are not recorded there.

## Left out

- Threading: the control thread, `join(timeout=5)`, the running flag read across threads, and the
  sleeps. The loop is modelled as the sequence of readings it polled before it saw the flag
  cleared. `Controller.Stop` is modelled as happening after the loop has exited.
- Time and durations as whole seconds: `time.time()` returns a float and the two green durations
  are configuration numbers. The model takes the time and both durations as whole non-negative
  seconds, so sub-second timings are not modelled. No proved property depends on whole seconds.
- Wall-clock time: each tick takes one `now`. The two clock reads inside a tick (the elapsed-time
  check and the green start time) are taken to read the same instant.
- Exceptions: errors raised by a sensor, an output command, the event sink or `start` are not
  modelled. Commands and the sink are treated as never failing. The one exception the model does
  treat is subtracting from a missing start time: that tick does nothing.
- Persistence: the writes to `TrafficEvent` and `SystemStatus`, including `_update_status`. The
  run's event log records which light-change events are emitted, not their text or their vehicle
  count.
- The OpenCV pipeline: background subtraction, threshold, morphology, contour extraction and the
  bounding-box drawing. These are foreign library calls, so a frame is abstracted to its contour
  areas.
- The physical LED strip: `PixelStrip`, `Color`, the platform probe and `show()`. The probe is the
  `hardware` flag fixed at construction. The pixel buffer stands for what the strip was told to
  show. Pixel writes at an index at or beyond the buffer length are treated as ignored.
- Randomness: `get_test_detection`'s uniform choice is a `Pick` parameter, and its 25% frequency
  is not modelled.
- Configuration values other than the two green durations (check interval, detection threshold,
  LED pin, brightness, camera index) have no effect on the decisions modelled.
- The web and app layers (views, URLs, admin, app config, ASGI, ORM schema) hold no decision logic.
- Logging.

=== FILE: arbiter.dfy ===
/** The per-tick switching policy of the traffic controller: which
    direction holds green, since when, and which light commands one tick
    issues given both vehicle counts and the current time. */
module Arbiter {
  import opened Wrappers
  import opened Directions

  /** Minimum and maximum green durations, in seconds. Nothing requires
      `minGreen <= maxGreen`. */
  datatype Config = Config(minGreen: nat, maxGreen: nat)

  /** `green` is the direction currently holding green; `since` the time it
      was switched to green. */
  datatype Arbiter = Arbiter(green: Option<Direction>, since: Option<nat>)

  /** A light command, in the order the tick issues it. */
  datatype Command = TurnRed(dir: Direction) | TurnGreen(dir: Direction)

  /** The state after one tick and the commands it issued. */
  datatype Tick = Tick(next: Arbiter, commands: seq<Command>)

  const Idle := Arbiter(None, None)

  /** A start time is recorded exactly when some direction holds green. */
  predicate Wf(a: Arbiter)
  {
    a.green.Some? == a.since.Some?
  }

  /** The vehicle count read for direction `d` this tick. */
  function CountFor(d: Direction, v1: nat, v2: nat): nat
  {
    match d
    case One => v1
    case Two => v2
  }

  /** Records `d` as green from `now` and commands its Green. */
  function SwitchToGreen(d: Direction, now: nat): (t: Tick)
    ensures Wf(t.next) && t.next.green == Some(d) && t.next.since == Some(now)
    ensures t.commands == [TurnGreen(d)]
  {
    Tick(Arbiter(Some(d), Some(now)), [TurnGreen(d)])
  }

  /** Commands `d` Red and clears the green direction and its start time. */
  function SwitchToRed(d: Direction): (t: Tick)
    ensures Wf(t.next) && t.next.green == None && t.next.since == None
    ensures t.commands == [TurnRed(d)]
  {
    Tick(Idle, [TurnRed(d)])
  }

  /** Switch-out of `d`: Red for `d`, then Green for the opposite direction
      if it has vehicles, otherwise Idle. */
  function Release(d: Direction, v1: nat, v2: nat, now: nat): (t: Tick)
    ensures Wf(t.next) && t.next.green != Some(d)
    ensures |t.commands| > 0 && t.commands[0] == TurnRed(d)
    ensures t.next.green == Some(Other(d)) <==> CountFor(Other(d), v1, v2) > 0
    ensures t.next.green.Some? ==>
              t.next.since == Some(now) && t.commands == [TurnRed(d), TurnGreen(Other(d))]
    ensures t.next.green.None? ==> t.commands == [TurnRed(d)]
  {
    var other := Other(d);
    if CountFor(other, v1, v2) > 0 then
      Tick(SwitchToGreen(other, now).next, SwitchToRed(d).commands + SwitchToGreen(other, now).commands)
    else
      SwitchToRed(d)
  }

  /** One tick of the control loop, after the counts have been read. A
      holding state without a start time makes the elapsed-time computation
      raise, which the loop swallows: the tick then does nothing. */
  function Step(cfg: Config, a: Arbiter, v1: nat, v2: nat, now: nat): (t: Tick)
    ensures Wf(a) ==> Wf(t.next)
    ensures |t.commands| <= 2
    ensures t.commands == [] ==> t.next == a
    ensures forall i, j :: 0 <= i < j < |t.commands| ==> t.commands[i].TurnRed? && t.commands[j].TurnGreen?
    ensures forall i :: 0 <= i < |t.commands| && t.commands[i].TurnGreen? ==>
              t.next == Arbiter(Some(t.commands[i].dir), Some(now))
    ensures forall i :: 0 <= i < |t.commands| && t.commands[i].TurnRed? ==> a.green == Some(t.commands[i].dir)
  {
    match a.green
    case None =>
      if v1 > 0 then SwitchToGreen(One, now)
      else if v2 > 0 then SwitchToGreen(Two, now)
      else Tick(a, [])
    case Some(d) =>
      match a.since
      case None => Tick(a, [])
      case Some(start) =>
        var elapsed := now - start;
        if elapsed < cfg.minGreen then Tick(a, [])
        else if CountFor(d, v1, v2) == 0 then Release(d, v1, v2, now)
        else if elapsed >= cfg.maxGreen then Release(d, v1, v2, now)
        else Tick(a, [])
  }

  /** Idle tick: direction One wins whenever it has vehicles, Two is chosen
      only when One has none, and with no vehicles nothing happens. */
  lemma IdleStep(cfg: Config, a: Arbiter, v1: nat, v2: nat, now: nat)
    requires a.green == None
    ensures var t := Step(cfg, a, v1, v2, now);
      && (v1 > 0 ==> t == Tick(Arbiter(Some(One), Some(now)), [TurnGreen(One)]))
      && (v1 == 0 && v2 > 0 ==> t == Tick(Arbiter(Some(Two), Some(now)), [TurnGreen(Two)]))
      && (v1 == 0 && v2 == 0 ==> t == Tick(a, []))
  {
  }

  /** Tie-break: with vehicles both ways, an idle tick greens direction One. */
  lemma TieBreakFavoursOne(cfg: Config, a: Arbiter, v1: nat, v2: nat, now: nat)
    requires a.green == None && v1 > 0 && v2 > 0
    ensures Step(cfg, a, v1, v2, now).next.green == Some(One)
    ensures Step(cfg, a, v1, v2, now).commands == [TurnGreen(One)]
  {
  }

  /** Before the minimum green time has elapsed the tick changes nothing,
      whatever the counts. */
  lemma MinGreenFloor(cfg: Config, d: Direction, start: nat, v1: nat, v2: nat, now: nat)
    requires now - start < cfg.minGreen
    ensures var a := Arbiter(Some(d), Some(start));
      Step(cfg, a, v1, v2, now) == Tick(a, [])
  {
  }

  /** The tick releases the holding direction `d` exactly when the minimum
      has elapsed and either `d` has no vehicles or the maximum has elapsed;
      a release commands Red for `d` first and then greens the opposite
      direction if and only if it has vehicles. */
  lemma ReleaseRule(cfg: Config, d: Direction, start: nat, v1: nat, v2: nat, now: nat)
    ensures var t := Step(cfg, Arbiter(Some(d), Some(start)), v1, v2, now);
      var elapsed := now - start;
      var released := elapsed >= cfg.minGreen && (CountFor(d, v1, v2) == 0 || elapsed >= cfg.maxGreen);
      && (released <==> TurnRed(d) in t.commands)
      && (released ==> t.commands[0] == TurnRed(d))
      && (released && CountFor(Other(d), v1, v2) > 0 ==>
            t == Tick(Arbiter(Some(Other(d)), Some(now)), [TurnRed(d), TurnGreen(Other(d))]))
      && (released && CountFor(Other(d), v1, v2) == 0 ==> t == Tick(Idle, [TurnRed(d)]))
      && (!released ==> t == Tick(Arbiter(Some(d), Some(start)), []))
  {
  }

  /** Between the minimum and the maximum, a direction that still has
      vehicles keeps green and nothing is commanded. */
  lemma HoldWhileBusy(cfg: Config, d: Direction, start: nat, v1: nat, v2: nat, now: nat)
    requires cfg.minGreen <= now - start < cfg.maxGreen
    requires CountFor(d, v1, v2) > 0
    ensures var a := Arbiter(Some(d), Some(start));
      Step(cfg, a, v1, v2, now) == Tick(a, [])
  {
  }

  /** Once both the minimum and the maximum have elapsed, the holding
      direction loses green whatever its count. The maximum alone is not
      enough when it is smaller than the minimum. */
  lemma MaxGreenForcesRelease(cfg: Config, d: Direction, start: nat, v1: nat, v2: nat, now: nat)
    requires now - start >= cfg.minGreen && now - start >= cfg.maxGreen
    ensures Step(cfg, Arbiter(Some(d), Some(start)), v1, v2, now).next.green != Some(d)
  {
  }

  /** With a maximum below the minimum, the held direction keeps green
      past the maximum until the minimum elapses, whatever the counts. */
  lemma MaxBelowMinHoldsUntilMin(cfg: Config, d: Direction, start: nat, v1: nat, v2: nat, now: nat)
    requires cfg.maxGreen <= now - start < cfg.minGreen
    ensures var a := Arbiter(Some(d), Some(start));
      Step(cfg, a, v1, v2, now) == Tick(a, [])
  {
  }

  /** A forced switch-out with nobody waiting the other way goes Idle, and
      the same direction is greened again on the very next tick. */
  lemma ForcedReleaseThenRegreen()
    ensures var cfg := Config(5, 20);
      var t1 := Step(cfg, Arbiter(Some(One), Some(0)), 1, 0, 20);
      var t2 := Step(cfg, t1.next, 1, 0, 21);
      && t1 == Tick(Idle, [TurnRed(One)])
      && t2 == Tick(Arbiter(Some(One), Some(21)), [TurnGreen(One)])
  {
  }

  /** With minimum 10 and maximum 60: direction One, alone with vehicles,
      goes green at 0, is still green at 15 though past the minimum, and
      goes Idle on the first tick where its count drops to zero. */
  lemma SustainedThenDrop()
    ensures var cfg := Config(10, 60);
      var t0 := Step(cfg, Idle, 1, 0, 0);
      var t15 := Step(cfg, t0.next, 1, 0, 15);
      var t16 := Step(cfg, t15.next, 0, 0, 16);
      && t0 == Tick(Arbiter(Some(One), Some(0)), [TurnGreen(One)])
      && t15 == Tick(t0.next, [])
      && t16 == Tick(Idle, [TurnRed(One)])
  {
  }

  /** The start time only changes through a switch: it becomes `now` whenever
      the tick commands a Green, and it is cleared when the tick
      commands a Red and nothing else. A Red for `d` is only ever commanded
      at least the minimum green time after `d`'s recorded start. */
  lemma StartTimeDiscipline(cfg: Config, a: Arbiter, v1: nat, v2: nat, now: nat)
    requires Wf(a)
    ensures var t := Step(cfg, a, v1, v2, now);
      && ((exists i :: 0 <= i < |t.commands| && t.commands[i].TurnGreen?) ==> t.next.since == Some(now))
      && ((exists d :: t.commands == [TurnRed(d)]) ==> t.next.since == None)
      && (t.commands == [] ==> t.next.since == a.since)
      && (forall d :: TurnRed(d) in t.commands ==>
            a.green == Some(d) && a.since.Some? && now - a.since.value >= cfg.minGreen)
  {
    var t := Step(cfg, a, v1, v2, now);
    forall d | TurnRed(d) in t.commands
      ensures a.green == Some(d) && a.since.Some? && now - a.since.value >= cfg.minGreen
    {
      var i :| 0 <= i < |t.commands| && t.commands[i] == TurnRed(d);
      assert a.green == Some(d);
      ReleaseRule(cfg, d, a.since.value, v1, v2, now);
    }
  }
}

=== FILE: controller.dfy ===
/** The traffic controller: two detectors, one signal output and the
    arbiter state, with the start/stop lifecycle and the control loop
    (entry Reds, one tick per reading, exit Reds). The loop's thread and
    its sleeps are not modelled: the loop is the sequence of readings it
    polled before it saw the running flag cleared. */
module Controller {
  import opened Wrappers
  import opened Directions
  import Signal
  import Detector
  import opened Arbiter

  datatype System = System(running: bool, arbiter: Arbiter, led: Signal.Led,
                           det1: Detector.Detector, det2: Detector.Detector)

  /** What one tick polls: the time, both cameras' frames, and the two
      simulated choices used when no camera is active. */
  datatype Reading = Reading(now: nat, frame1: Detector.FrameRead, frame2: Detector.FrameRead,
                             pick1: Detector.Pick, pick2: Detector.Pick)

  /** A light-change event as the switch helpers record it. */
  datatype Event = Event(at: nat, command: Command)

  /** The system after some ticks, and the light-change events they emitted. */
  datatype Run = Run(sys: System, log: seq<Event>)

  /** The state the output reports for direction `d`. */
  function Light(led: Signal.Led, d: Direction): Signal.LightState
  {
    Signal.GetState(led, Name(d))
  }

  /** The output shows Green for the direction the arbiter holds and Red
      for every other direction. */
  predicate Agrees(a: Arbiter, led: Signal.Led)
  {
    forall d :: Light(led, d) == (if a.green == Some(d) then Signal.Green else Signal.Red)
  }

  predicate Inv(a: Arbiter, led: Signal.Led)
  {
    Wf(a) && Agrees(a, led)
  }

  predicate AtMostOneGreen(led: Signal.Led)
  {
    !(Light(led, One) == Signal.Green && Light(led, Two) == Signal.Green)
  }

  /** The invariant means: never two Greens, and the arbiter holds `d` iff
      `d` shows Green while the other direction shows Red. */
  lemma InvMeansExclusive(a: Arbiter, led: Signal.Led)
    requires Inv(a, led)
    ensures AtMostOneGreen(led)
    ensures forall d :: a.green == Some(d) <==>
              Light(led, d) == Signal.Green && Light(led, Other(d)) == Signal.Red
    ensures a.green == None ==> Light(led, One) == Signal.Red && Light(led, Two) == Signal.Red
  {
    assert Light(led, One) == (if a.green == Some(One) then Signal.Green else Signal.Red);
    assert Light(led, Two) == (if a.green == Some(Two) then Signal.Green else Signal.Red);
  }

  /** Sends one command to the output. */
  function Apply(led: Signal.Led, c: Command): (led': Signal.Led)
    ensures Light(led', c.dir) == (if c.TurnRed? then Signal.Red else Signal.Green)
    ensures Light(led', Other(c.dir)) == Light(led, Other(c.dir))
    ensures led'.active == led.active
  {
    NamesDistinct();
    match c
    case TurnRed(d) => Signal.SetRed(led, Name(d))
    case TurnGreen(d) => Signal.SetGreen(led, Name(d))
  }

  /** The state a command leaves its direction in. */
  function Shown(c: Command): Signal.LightState
  {
    if c.TurnRed? then Signal.Red else Signal.Green
  }

  /** Sends the commands to the output in order: the last command's
      direction ends in its state, and a direction no command names keeps
      its state. */
  function ApplyAll(led: Signal.Led, cs: seq<Command>): (led': Signal.Led)
    ensures led'.active == led.active
    ensures forall d :: (forall i :: 0 <= i < |cs| ==> cs[i].dir != d) ==> Light(led', d) == Light(led, d)
    ensures |cs| > 0 ==> Light(led', cs[|cs| - 1].dir) == Shown(cs[|cs| - 1])
    decreases |cs|
  {
    if cs == [] then led
    else
      var rest := ApplyAll(Apply(led, cs[0]), cs[1..]);
      assert forall i :: 1 <= i < |cs| ==> cs[i] == cs[1..][i - 1];
      rest
  }

  /** Each direction a command names ends in the state of the last command
      naming it. */
  lemma {:induction false} ApplyAllLastNaming(led: Signal.Led, cs: seq<Command>, i: nat)
    requires i < |cs|
    requires forall j :: i < j < |cs| ==> cs[j].dir != cs[i].dir
    ensures Light(ApplyAll(led, cs), cs[i].dir) == Shown(cs[i])
    decreases |cs|
  {
    var first := Apply(led, cs[0]);
    assert forall j :: 1 <= j < |cs| ==> cs[j] == cs[1..][j - 1];
    if i == 0 {
      assert forall j :: 0 <= j < |cs[1..]| ==> cs[1..][j].dir != cs[0].dir;
      assert Light(first, cs[0].dir) == Shown(cs[0]);
    } else {
      ApplyAllLastNaming(first, cs[1..], i - 1);
    }
  }

  /** Sending one more command is applying it after the others. */
  lemma {:induction false} ApplyAllSnoc(led: Signal.Led, cs: seq<Command>, c: Command)
    ensures ApplyAll(led, cs + [c]) == Apply(ApplyAll(led, cs), c)
    decreases |cs|
  {
    if cs == [] {
      assert [] + [c] == [c];
      assert [c][1..] == [];
    } else {
      assert (cs + [c])[0] == cs[0];
      assert (cs + [c])[1..] == cs[1..] + [c];
      ApplyAllSnoc(Apply(led, cs[0]), cs[1..], c);
    }
  }

  /** The counts one tick uses: from the cameras when either is active
      (an inactive one then reads 0), otherwise the simulated choices.
      Without an active camera both counts are at most one. With one, a
      camera holding a capture whose frame yields contours reports the
      number of large contours, and a failed read or pipeline reports 0. */
  function Counts(sys: System, r: Reading): (c: (nat, nat))
    ensures !sys.det1.active && !sys.det2.active ==>
              c == (Detector.TestDetection(r.pick1), Detector.TestDetection(r.pick2)) && c.0 <= 1 && c.1 <= 1
    ensures sys.det1.active && !sys.det2.active ==> c.1 == 0
    ensures !sys.det1.active && sys.det2.active ==> c.0 == 0
    ensures sys.det1.active || sys.det2.active ==>
              (r.frame1.Contours? ==> c.0 <= |r.frame1.areas|) && (r.frame2.Contours? ==> c.1 <= |r.frame2.areas|)
    ensures sys.det1.active || sys.det2.active ==>
              && (sys.det1.active && sys.det1.capture && r.frame1.Contours? ==> c.0 == Detector.VehicleCount(r.frame1.areas))
              && (sys.det2.active && sys.det2.capture && r.frame2.Contours? ==> c.1 == Detector.VehicleCount(r.frame2.areas))
              && (!sys.det1.capture || r.frame1.NoFrame? || r.frame1.PipelineFailed? ==> c.0 == 0)
              && (!sys.det2.capture || r.frame2.NoFrame? || r.frame2.PipelineFailed? ==> c.1 == 0)
  {
    if sys.det1.active || sys.det2.active then
      (Detector.Detect(sys.det1, r.frame1), Detector.Detect(sys.det2, r.frame2))
    else
      (Detector.TestDetection(r.pick1), Detector.TestDetection(r.pick2))
  }

  /** One tick: poll the counts, decide, and send the commands. */
  function TickOf(cfg: Config, sys: System, r: Reading): (out: (System, seq<Command>))
    ensures out.0.running == sys.running && out.0.det1 == sys.det1 && out.0.det2 == sys.det2
    ensures out.0.led.active == sys.led.active
    ensures Inv(sys.arbiter, sys.led) ==> Inv(out.0.arbiter, out.0.led)
  {
    var c := Counts(sys, r);
    var t := Step(cfg, sys.arbiter, c.0, c.1, r.now);
    var next := sys.(arbiter := t.next, led := ApplyAll(sys.led, t.commands));
    assert Inv(sys.arbiter, sys.led) ==> Inv(next.arbiter, next.led) by {
      if Inv(sys.arbiter, sys.led) {
        StepPreservesInv(cfg, sys.arbiter, sys.led, c.0, c.1, r.now);
      }
    }
    (next, t.commands)
  }

  /** Timestamps each command of a tick. */
  function Stamp(now: nat, cs: seq<Command>): (es: seq<Event>)
    ensures |es| == |cs|
    ensures forall i :: 0 <= i < |cs| ==> es[i] == Event(now, cs[i])
  {
    seq(|cs|, i requires 0 <= i < |cs| => Event(now, cs[i]))
  }

  /** The ticks of the loop, in order, with the events they emitted. */
  function RunTicks(cfg: Config, sys: System, rs: seq<Reading>): (run: Run)
    ensures run.sys.running == sys.running && run.sys.det1 == sys.det1 && run.sys.det2 == sys.det2
    ensures run.sys.led.active == sys.led.active
    ensures Inv(sys.arbiter, sys.led) ==> Inv(run.sys.arbiter, run.sys.led)
    ensures |run.log| <= 2 * |rs|
    decreases |rs|
  {
    if rs == [] then Run(sys, [])
    else
      var prev := RunTicks(cfg, sys, rs[..|rs| - 1]);
      var last := rs[|rs| - 1];
      var out := TickOf(cfg, prev.sys, last);
      Run(out.0, prev.log + Stamp(last.now, out.1))
  }

  /** Both directions commanded Red, first One then Two. */
  function BothRed(sys: System): (sys': System)
    ensures Light(sys'.led, One) == Signal.Red && Light(sys'.led, Two) == Signal.Red
    ensures sys'.running == sys.running && sys'.arbiter == sys.arbiter
    ensures sys'.det1 == sys.det1 && sys'.det2 == sys.det2 && sys'.led.active == sys.led.active
  {
    NamesDistinct();
    sys.(led := Signal.SetRed(Signal.SetRed(sys.led, Name(One)), Name(Two)))
  }

  /** The loop's whole life: Reds on entry, the ticks, Reds on exit. It
      always leaves both directions Red, whatever state it ended in. */
  function ControlLoop(cfg: Config, sys: System, rs: seq<Reading>): (sys': System)
    ensures Light(sys'.led, One) == Signal.Red && Light(sys'.led, Two) == Signal.Red
    ensures sys'.det1 == sys.det1 && sys'.det2 == sys.det2 && sys'.led.active == sys.led.active
  {
    BothRed(RunTicks(cfg, BothRed(sys), rs).sys)
  }

  /** A freshly constructed controller: not running, nothing green. */
  function New(ledCount: nat, hardware: bool): (sys: System)
    ensures !sys.running && sys.arbiter == Idle
    ensures !sys.det1.active && !sys.det2.active && !sys.led.active
  {
    System(false, Idle, Signal.New(ledCount, hardware), Detector.New(), Detector.New())
  }

  /** Starts the cameras (each may fail to open) and the output, then sets
      the running flag; a no-op when already running. The arbiter state is
      kept as it is. */
  function Start(sys: System, opens1: bool, opens2: bool): (sys': System)
    ensures sys.running ==> sys' == sys
    ensures !sys.running ==>
      && sys'.running && sys'.led.active && sys'.arbiter == sys.arbiter
      && Light(sys'.led, One) == Signal.Red && Light(sys'.led, Two) == Signal.Red
      && sys'.det1.active == (opens1 || sys.det1.active)
      && sys'.det2.active == (opens2 || sys.det2.active)
  {
    if sys.running then sys
    else
      System(true, sys.arbiter, Signal.Start(sys.led),
             Detector.Start(sys.det1, opens1).0, Detector.Start(sys.det2, opens2).0)
  }

  /** Clears the running flag and stops both cameras and the output. The
      loop has exited by then, so the output's Reds are replaced by Off. */
  function Stop(sys: System): (sys': System)
    ensures !sys'.running && !sys'.det1.active && !sys'.det2.active && !sys'.led.active
    ensures sys.led.active ==> Light(sys'.led, One) == Signal.Off && Light(sys'.led, Two) == Signal.Off
    ensures sys'.arbiter == sys.arbiter
  {
    System(false, sys.arbiter, Signal.Stop(sys.led), Detector.Stop(sys.det1), Detector.Stop(sys.det2))
  }

  /** A second `Stop` changes nothing. */
  lemma StopIdempotent(sys: System)
    ensures Stop(Stop(sys)) == Stop(sys)
  {
    Signal.StopIdempotent(sys.led);
  }

  /** The commands of one tick keep the output agreeing with the arbiter,
      and no intermediate point of the tick shows two Greens: the outgoing
      Red is sent before the incoming Green. */
  lemma StepPreservesInv(cfg: Config, a: Arbiter, led: Signal.Led, v1: nat, v2: nat, now: nat)
    requires Inv(a, led)
    ensures var t := Step(cfg, a, v1, v2, now);
      && Inv(t.next, ApplyAll(led, t.commands))
      && forall k :: 0 <= k <= |t.commands| ==> AtMostOneGreen(ApplyAll(led, t.commands[..k]))
  {
    var t := Step(cfg, a, v1, v2, now);
    InvMeansExclusive(a, led);
    assert ApplyAll(led, []) == led;
    if |t.commands| == 0 {
    } else if |t.commands| == 1 {
      var l1 := Apply(led, t.commands[0]);
      assert ApplyAll(l1, []) == l1;
      assert t.commands[..1] == t.commands;
      assert ApplyAll(led, t.commands) == l1;
      forall d ensures Light(l1, d) == (if t.next.green == Some(d) then Signal.Green else Signal.Red) {
        if d != t.commands[0].dir {
          assert d == Other(t.commands[0].dir);
        }
      }
    } else {
      var c0, c1 := t.commands[0], t.commands[1];
      assert c0.TurnRed? && c1.TurnGreen?;
      assert c1.dir == Other(c0.dir) by {
        ReleaseRule(cfg, c0.dir, a.since.value, v1, v2, now);
      }
      var l1 := Apply(led, c0);
      var l2 := Apply(l1, c1);
      assert ApplyAll(l2, []) == l2;
      assert t.commands[1..][1..] == [];
      assert ApplyAll(l1, t.commands[1..]) == l2;
      assert t.commands[..2] == t.commands;
      assert t.commands[..1][1..] == [];
      assert ApplyAll(led, t.commands[..1]) == l1;
      assert Light(l1, One) == Signal.Red && Light(l1, Two) == Signal.Red;
      forall d ensures Light(l2, d) == (if t.next.green == Some(d) then Signal.Green else Signal.Red) {
        if d != c1.dir {
          assert d == Other(c1.dir);
        }
      }
    }
  }

  /** Every Red in the event log directly follows the Green of the same
      direction, issued at least the minimum green time before. */
  predicate LogOk(cfg: Config, log: seq<Event>)
  {
    forall j :: 0 <= j < |log| && log[j].command.TurnRed? ==>
      && j > 0
      && log[j - 1].command == TurnGreen(log[j].command.dir)
      && log[j].at - log[j - 1].at >= cfg.minGreen
  }

  /** While a direction holds green, the last logged event is the Green
      that started the hold, stamped with the recorded start time. */
  predicate HoldLogged(a: Arbiter, log: seq<Event>)
  {
    a.green.Some? ==> |log| > 0 && a.since.Some? && log[|log| - 1] == Event(a.since.value, TurnGreen(a.green.value))
  }

  /** One tick keeps the event-log discipline. */
  lemma TickKeepsLog(cfg: Config, a: Arbiter, log: seq<Event>, v1: nat, v2: nat, now: nat)
    requires Wf(a) && LogOk(cfg, log) && HoldLogged(a, log)
    ensures var t := Step(cfg, a, v1, v2, now);
      var log' := log + Stamp(now, t.commands);
      LogOk(cfg, log') && HoldLogged(t.next, log')
  {
    var t := Step(cfg, a, v1, v2, now);
    var log' := log + Stamp(now, t.commands);
    StartTimeDiscipline(cfg, a, v1, v2, now);
    forall j | 0 <= j < |log'| && log'[j].command.TurnRed?
      ensures j > 0
      ensures log'[j - 1].command == TurnGreen(log'[j].command.dir)
      ensures log'[j].at - log'[j - 1].at >= cfg.minGreen
    {
      if j >= |log| {
        var i := j - |log|;
        assert log'[j] == Event(now, t.commands[i]);
        assert i == 0;
        var d := t.commands[0].dir;
        assert TurnRed(d) in t.commands;
        assert a.green == Some(d);
        assert log'[j - 1] == log[|log| - 1];
      }
    }
    if t.next.green.Some? {
      if t.commands == [] {
        assert log' == log;
      } else {
        var i := |t.commands| - 1;
        assert t.commands[i].TurnGreen? by {
          match a.green
          case None => IdleStep(cfg, a, v1, v2, now);
          case Some(d) => ReleaseRule(cfg, d, a.since.value, v1, v2, now);
        }
        assert log'[|log'| - 1] == Event(now, t.commands[i]);
      }
    }
  }

  /** A run of ticks keeps the output agreeing with the arbiter, and it
      keeps the event-log discipline of any log it extends. */
  lemma {:induction false} RunKeepsInv(cfg: Config, sys: System, log0: seq<Event>, rs: seq<Reading>)
    requires Inv(sys.arbiter, sys.led) && LogOk(cfg, log0) && HoldLogged(sys.arbiter, log0)
    ensures var run := RunTicks(cfg, sys, rs);
      && Inv(run.sys.arbiter, run.sys.led)
      && LogOk(cfg, log0 + run.log) && HoldLogged(run.sys.arbiter, log0 + run.log)
    decreases |rs|
  {
    if rs == [] {
      assert log0 + [] == log0;
    } else {
      var prev := RunTicks(cfg, sys, rs[..|rs| - 1]);
      RunKeepsInv(cfg, sys, log0, rs[..|rs| - 1]);
      var last := rs[|rs| - 1];
      var out := TickOf(cfg, prev.sys, last);
      OneTickKeepsLog(cfg, prev.sys, log0 + prev.log, last);
      AppendAssoc(log0, prev.log, Stamp(last.now, out.1));
    }
  }

  lemma AppendAssoc<T>(a: seq<T>, b: seq<T>, c: seq<T>)
    ensures (a + b) + c == a + (b + c)
  {
  }

  /** One loop iteration keeps agreement and extends a well-formed log
      with well-formed events. */
  lemma OneTickKeepsLog(cfg: Config, sys: System, log: seq<Event>, r: Reading)
    requires Inv(sys.arbiter, sys.led) && LogOk(cfg, log) && HoldLogged(sys.arbiter, log)
    ensures var out := TickOf(cfg, sys, r);
      && Inv(out.0.arbiter, out.0.led)
      && LogOk(cfg, log + Stamp(r.now, out.1)) && HoldLogged(out.0.arbiter, log + Stamp(r.now, out.1))
  {
    var c := Counts(sys, r);
    TickKeepsLog(cfg, sys.arbiter, log, c.0, c.1, r.now);
  }

  /** A freshly constructed controller, once started: the loop's entry
      Reds establish the invariant; after every tick at most one direction
      is Green and the output agrees with the arbiter; every switch-out in
      the event log follows its own switch-in by at least the minimum; and
      the loop leaves both directions Red. */
  lemma FreshSessionSafe(cfg: Config, ledCount: nat, hardware: bool, opens1: bool, opens2: bool, rs: seq<Reading>)
    ensures var started := BothRed(Start(New(ledCount, hardware), opens1, opens2));
      && Inv(started.arbiter, started.led)
      && (forall k :: 0 <= k <= |rs| ==>
            var run := RunTicks(cfg, started, rs[..k]);
            AtMostOneGreen(run.sys.led) && Inv(run.sys.arbiter, run.sys.led) && LogOk(cfg, run.log))
      && var ended := ControlLoop(cfg, Start(New(ledCount, hardware), opens1, opens2), rs);
         Light(ended.led, One) == Signal.Red && Light(ended.led, Two) == Signal.Red
  {
    var started := BothRed(Start(New(ledCount, hardware), opens1, opens2));
    assert started.arbiter == Idle;
    forall d ensures Light(started.led, d) == Signal.Red {
      if d == Two { } else { }
    }
    forall k | 0 <= k <= |rs|
      ensures var run := RunTicks(cfg, started, rs[..k]);
        AtMostOneGreen(run.sys.led) && Inv(run.sys.arbiter, run.sys.led) && LogOk(cfg, run.log)
    {
      RunKeepsInv(cfg, started, [], rs[..k]);
      assert [] + RunTicks(cfg, started, rs[..k]).log == RunTicks(cfg, started, rs[..k]).log;
      var run := RunTicks(cfg, started, rs[..k]);
      InvMeansExclusive(run.sys.arbiter, run.sys.led);
    }
  }

  /** A run of one tick is that tick. */
  lemma RunOneTick(cfg: Config, sys: System, r: Reading)
    ensures RunTicks(cfg, sys, [r]).sys == TickOf(cfg, sys, r).0
  {
    assert [r][..0] == [];
    assert [r][0] == r;
  }

  /** Starting again the same controller object keeps the arbiter state of
      the previous run, while the output restarts with both Red: the loop
      then holds direction One as green with its light showing Red. */
  lemma RestartKeepsStaleHold(ledCount: nat, hardware: bool)
    ensures var cfg := Config(10, 60);
      var r0 := Reading(0, Detector.NoFrame, Detector.NoFrame, 3, 0);
      var r1 := Reading(15, Detector.NoFrame, Detector.NoFrame, 3, 0);
      var first := Stop(ControlLoop(cfg, Start(New(ledCount, hardware), false, false), [r0]));
      var again := RunTicks(cfg, BothRed(Start(first, false, false)), [r1]).sys;
      again.arbiter.green == Some(One) && Light(again.led, One) == Signal.Red
  {
    var cfg := Config(10, 60);
    var r1 := Reading(15, Detector.NoFrame, Detector.NoFrame, 3, 0);
    FirstSessionHoldsOne(ledCount, hardware);
    var first := Stop(ControlLoop(cfg, Start(New(ledCount, hardware), false, false),
                                  [Reading(0, Detector.NoFrame, Detector.NoFrame, 3, 0)]));
    var s1 := BothRed(Start(first, false, false));
    assert s1.arbiter == first.arbiter && !s1.det1.active && !s1.det2.active;
    assert Counts(s1, r1) == (1, 0);
    HoldWhileBusy(cfg, One, 0, 1, 0, 15);
    RunOneTick(cfg, s1, r1);
    assert TickOf(cfg, s1, r1).0.led == ApplyAll(s1.led, []);
  }

  /** The first session of the stale-hold scenario: one tick with a
      simulated vehicle for direction One, then stop. */
  lemma FirstSessionHoldsOne(ledCount: nat, hardware: bool)
    ensures var first := Stop(ControlLoop(Config(10, 60), Start(New(ledCount, hardware), false, false),
                                          [Reading(0, Detector.NoFrame, Detector.NoFrame, 3, 0)]));
      && first.arbiter == Arbiter(Some(One), Some(0))
      && !first.running && !first.det1.active && !first.det2.active
  {
    var cfg := Config(10, 60);
    var r0 := Reading(0, Detector.NoFrame, Detector.NoFrame, 3, 0);
    var s0 := BothRed(Start(New(ledCount, hardware), false, false));
    assert !s0.det1.active && !s0.det2.active && s0.arbiter == Idle;
    assert Counts(s0, r0) == (1, 0);
    IdleStep(cfg, Idle, 1, 0, 0);
    RunOneTick(cfg, s0, r0);
    assert TickOf(cfg, s0, r0).0.arbiter == Arbiter(Some(One), Some(0));
  }
}

=== FILE: detector.dfy ===
/** One presence sensor. The camera and the motion pipeline are abstracted:
    a frame read either fails, or the pipeline fails, or it yields the areas
    of the external contours it found. */
module Detector {

  /** `capture` says whether a capture object is held; `active` whether the
      camera opened. */
  datatype Detector = Detector(capture: bool, active: bool)

  /** The outcome of one frame pull followed by the motion pipeline. */
  datatype FrameRead =
    | NoFrame                        // the read reported failure or gave no frame
    | PipelineFailed                 // the motion pipeline raised
    | Contours(areas: seq<real>)     // areas of the contours found in the frame

  /** Minimum contour area, strictly exceeded, for a blob to count as a vehicle. */
  const MinArea: real := 1000.0

  /** The values `get_test_detection` chooses from, uniformly. */
  const TestChoices: seq<nat> := [0, 0, 0, 1]

  type Pick = i: nat | i < 4

  function New(): (d: Detector)
    ensures !d.active && !d.capture
  {
    Detector(false, false)
  }

  /** Opens the camera. A capture object is kept even when the camera does
      not open; the result says whether it opened, and only then does the
      detector become active. */
  function Start(d: Detector, opens: bool): (r: (Detector, bool))
    ensures r.1 <==> opens
    ensures r.0.capture
    ensures opens ==> r.0.active
    ensures !opens ==> r.0.active == d.active
  {
    if opens then (Detector(true, true), true) else (d.(capture := true), false)
  }

  /** Releases the capture and deactivates. */
  function Stop(d: Detector): (d': Detector)
    ensures !d'.active && !d'.capture
  {
    Detector(false, false)
  }

  /** A second `Stop` changes nothing. */
  lemma StopIdempotent(d: Detector)
    ensures Stop(Stop(d)) == Stop(d)
  {
  }

  /** Starting a fresh detector whose camera does not open reports failure
      and leaves it inactive. */
  lemma FailedStartStaysInactive()
    ensures !Start(New(), false).1 && !Start(New(), false).0.active
  {
  }

  /** The contours larger than `MinArea`, in their original order. */
  function LargeContours(areas: seq<real>): (large: seq<real>)
    ensures |large| <= |areas|
    ensures forall x :: multiset(large)[x] == (if x > MinArea then multiset(areas)[x] else 0)
  {
    if areas == [] then []
    else
      var rest := LargeContours(areas[1..]);
      assert areas == [areas[0]] + areas[1..];
      if areas[0] > MinArea then [areas[0]] + rest else rest
  }

  /** The vehicle count of a frame: the number of large contours. */
  function VehicleCount(areas: seq<real>): (count: nat)
    ensures count <= |areas|
    ensures forall i :: 0 <= i < |areas| && areas[i] > MinArea ==> count > 0
  {
    var large := LargeContours(areas);
    assert forall i :: 0 <= i < |areas| && areas[i] > MinArea ==> large != [] by {
      forall i | 0 <= i < |areas| && areas[i] > MinArea
        ensures large != []
      {
        assert areas[i] in multiset(areas);
        assert multiset(large)[areas[i]] > 0;
      }
    }
    |large|
  }

  /** Filtering distributes over appending one more contour. */
  lemma {:induction false} LargeContoursSnoc(areas: seq<real>, x: real)
    ensures LargeContours(areas + [x]) == LargeContours(areas) + (if x > MinArea then [x] else [])
    decreases |areas|
  {
    if areas == [] {
      assert areas + [x] == [x];
    } else {
      assert (areas + [x])[1..] == areas[1..] + [x];
      LargeContoursSnoc(areas[1..], x);
    }
  }

  /** The count is the whole list exactly when every contour is large, and
      zero exactly when none is. */
  lemma {:induction false} VehicleCountExtremes(areas: seq<real>)
    ensures VehicleCount(areas) == |areas| <==> forall i :: 0 <= i < |areas| ==> areas[i] > MinArea
    ensures VehicleCount(areas) == 0 <==> forall i :: 0 <= i < |areas| ==> areas[i] <= MinArea
    decreases |areas|
  {
    if areas != [] {
      VehicleCountExtremes(areas[1..]);
      assert forall i :: 1 <= i < |areas| ==> areas[i] == areas[1..][i - 1];
      if areas[0] > MinArea {
        assert VehicleCount(areas) == VehicleCount(areas[1..]) + 1;
      } else {
        assert VehicleCount(areas) == VehicleCount(areas[1..]);
        assert VehicleCount(areas[1..]) <= |areas[1..]|;
      }
    }
  }

  /** The counting loop of the motion detector. */
  method CountVehicles(areas: seq<real>) returns (count: nat)
    ensures count == VehicleCount(areas)
    ensures count <= |areas|
  {
    count := 0;
    var i := 0;
    while i < |areas|
      invariant 0 <= i <= |areas|
      invariant count == VehicleCount(areas[..i])
    {
      LargeContoursSnoc(areas[..i], areas[i]);
      assert areas[..i + 1] == areas[..i] + [areas[i]];
      if areas[i] > MinArea {
        count := count + 1;
      }
      i := i + 1;
    }
    assert areas[..i] == areas;
  }

  /** One poll: zero unless the detector is active, holds a capture, and the
      frame yields contours; then the number of large contours. */
  function Detect(d: Detector, read: FrameRead): (count: nat)
    ensures !d.active || !d.capture ==> count == 0
    ensures read.NoFrame? || read.PipelineFailed? ==> count == 0
    ensures read.Contours? ==> count <= |read.areas|
    ensures d.active && d.capture && read.Contours? ==> count == VehicleCount(read.areas)
  {
    if !d.active || !d.capture then 0
    else
      match read
      case NoFrame => 0
      case PipelineFailed => 0
      case Contours(areas) => VehicleCount(areas)
  }

  /** The simulated reading used when no camera works: one of the choices,
      so never more than one vehicle. */
  function TestDetection(pick: Pick): (count: nat)
    ensures count == 0 || count == 1
    ensures count == 1 <==> pick == |TestChoices| - 1
  {
    TestChoices[pick]
  }
}

=== FILE: directions.dfy ===
/** The two competing traffic directions and the names the signal output
    uses for them. */
module Directions {

  datatype Direction = One | Two

  /** The opposing direction. */
  function Other(d: Direction): (o: Direction)
    ensures o != d
  {
    match d
    case One => Two
    case Two => One
  }

  /** The key under which the signal output stores a direction's state. */
  function Name(d: Direction): string
  {
    match d
    case One => "direction_1"
    case Two => "direction_2"
  }

  lemma NamesDistinct()
    ensures Name(One) != Name(Two)
  {
    assert Name(One)[10] != Name(Two)[10];
  }
}

=== FILE: signal.dfy ===
/** The signal output: a last-commanded-state table per direction name
    (what `get_state` reads back) and, when a physical strip is driven, a
    pixel buffer with three lamps per direction. */
module Signal {
  import opened Directions

  datatype LightState = Red | Yellow | Green | Off

  datatype Color = Color(r: nat, g: nat, b: nat)

  const ColorRed := Color(255, 0, 0)
  const ColorGreen := Color(0, 255, 0)
  const ColorYellow := Color(255, 255, 0)
  const ColorOff := Color(0, 0, 0)

  /** Lamp offsets inside a direction's block of three pixels. */
  const RedLamp: nat := 0
  const YellowLamp: nat := 1
  const GreenLamp: nat := 2

  /** `hardware` is the platform probe made once at import time; `strip`
      says whether a strip object has been created by `Start`. */
  datatype Led = Led(hardware: bool, strip: bool, active: bool,
                     table: map<string, LightState>, pixels: seq<Color>)

  /** Pixel writes reach the strip only on hardware with a strip created. */
  predicate Driving(led: Led)
  {
    led.hardware && led.strip
  }

  /** First pixel of a direction's block: the first direction owns pixels
      0-2, and every other name selects pixels 3-5. */
  function LampBase(name: string): (base: nat)
    ensures base == 0 || base == 3
    ensures base == 0 <==> name == Name(One)
  {
    if name == Name(One) then 0 else 3
  }

  /** The state last commanded for `name`, Red for a name never commanded. */
  function GetState(led: Led, name: string): (s: LightState)
    ensures name in led.table ==> s == led.table[name]
    ensures name !in led.table ==> s == Red
  {
    if name in led.table then led.table[name] else Red
  }

  /** The pixel block at `base` shows color `c` on lamp `lamp` and nothing
      on the other two lamps. */
  predicate ShowsOnly(pixels: seq<Color>, base: nat, lamp: nat, c: Color)
    requires base + 3 <= |pixels|
  {
    && pixels[base + RedLamp] == (if lamp == RedLamp then c else ColorOff)
    && pixels[base + YellowLamp] == (if lamp == YellowLamp then c else ColorOff)
    && pixels[base + GreenLamp] == (if lamp == GreenLamp then c else ColorOff)
  }

  /** Every pixel outside the block starting at `base` is the same in both buffers. */
  predicate OutsideUnchanged(before: seq<Color>, after: seq<Color>, base: nat)
  {
    && |before| == |after|
    && forall j :: 0 <= j < |before| && (j < base || base + 3 <= j) ==> after[j] == before[j]
  }

  /** A fresh output: inactive, no strip, both directions Red, all pixels dark. */
  function New(ledCount: nat, hardware: bool): (led: Led)
    ensures !led.active && !led.strip && led.hardware == hardware
    ensures GetState(led, Name(One)) == Red && GetState(led, Name(Two)) == Red
    ensures |led.pixels| == ledCount
  {
    Led(hardware, false, false, map[Name(One) := Red, Name(Two) := Red], seq(ledCount, _ => ColorOff))
  }

  /** Single-pixel update; a no-op in simulation mode. */
  function SetColor(led: Led, index: nat, c: Color): (led': Led)
    ensures led'.table == led.table && led'.active == led.active
    ensures led'.hardware == led.hardware && led'.strip == led.strip
    ensures |led'.pixels| == |led.pixels|
    ensures Driving(led) && index < |led.pixels| ==> led'.pixels[index] == c
    ensures forall j :: 0 <= j < |led.pixels| && j != index ==> led'.pixels[j] == led.pixels[j]
    ensures !Driving(led) ==> led'.pixels == led.pixels
  {
    if Driving(led) && index < |led.pixels| then led.(pixels := led.pixels[index := c]) else led
  }

  /** Writes the three lamps of `name`'s block, then records `state` for `name`. */
  function SetLamps(led: Led, name: string, state: LightState, red: Color, yellow: Color, green: Color): (led': Led)
    ensures GetState(led', name) == state
    ensures forall n :: n != name ==> GetState(led', n) == GetState(led, n)
    ensures led'.active == led.active && led'.hardware == led.hardware && led'.strip == led.strip
    ensures |led'.pixels| == |led.pixels|
    ensures !Driving(led) ==> led'.pixels == led.pixels
    ensures Driving(led) && 6 <= |led.pixels| ==>
              && led'.pixels[LampBase(name) + RedLamp] == red
              && led'.pixels[LampBase(name) + YellowLamp] == yellow
              && led'.pixels[LampBase(name) + GreenLamp] == green
              && OutsideUnchanged(led.pixels, led'.pixels, LampBase(name))
  {
    var base := LampBase(name);
    var l := SetColor(SetColor(SetColor(led, base + RedLamp, red), base + YellowLamp, yellow), base + GreenLamp, green);
    l.(table := l.table[name := state])
  }

  /** Red lamp on, the other two off; `name` reads back Red. */
  function SetRed(led: Led, name: string): (led': Led)
    ensures GetState(led', name) == Red
    ensures forall n :: n != name ==> GetState(led', n) == GetState(led, n)
    ensures led'.active == led.active && led'.hardware == led.hardware && led'.strip == led.strip
    ensures |led'.pixels| == |led.pixels|
    ensures !Driving(led) ==> led'.pixels == led.pixels
    ensures Driving(led) && 6 <= |led.pixels| ==>
              && ShowsOnly(led'.pixels, LampBase(name), RedLamp, ColorRed)
              && OutsideUnchanged(led.pixels, led'.pixels, LampBase(name))
  {
    SetLamps(led, name, Red, ColorRed, ColorOff, ColorOff)
  }

  /** Green lamp on, the other two off; `name` reads back Green. */
  function SetGreen(led: Led, name: string): (led': Led)
    ensures GetState(led', name) == Green
    ensures forall n :: n != name ==> GetState(led', n) == GetState(led, n)
    ensures led'.active == led.active && led'.hardware == led.hardware && led'.strip == led.strip
    ensures |led'.pixels| == |led.pixels|
    ensures !Driving(led) ==> led'.pixels == led.pixels
    ensures Driving(led) && 6 <= |led.pixels| ==>
              && ShowsOnly(led'.pixels, LampBase(name), GreenLamp, ColorGreen)
              && OutsideUnchanged(led.pixels, led'.pixels, LampBase(name))
  {
    SetLamps(led, name, Green, ColorOff, ColorOff, ColorGreen)
  }

  /** Yellow lamp on, the other two off; `name` reads back Yellow. */
  function SetYellow(led: Led, name: string): (led': Led)
    ensures GetState(led', name) == Yellow
    ensures forall n :: n != name ==> GetState(led', n) == GetState(led, n)
    ensures led'.active == led.active && led'.hardware == led.hardware && led'.strip == led.strip
    ensures |led'.pixels| == |led.pixels|
    ensures !Driving(led) ==> led'.pixels == led.pixels
    ensures Driving(led) && 6 <= |led.pixels| ==>
              && ShowsOnly(led'.pixels, LampBase(name), YellowLamp, ColorYellow)
              && OutsideUnchanged(led.pixels, led'.pixels, LampBase(name))
  {
    SetLamps(led, name, Yellow, ColorOff, ColorYellow, ColorOff)
  }

  /** Darkens every pixel of a driven strip and replaces the table by one
      holding Off for the two directions, so any other name reads back Red. */
  function TurnOffAll(led: Led): (led': Led)
    ensures forall n :: GetState(led', n) == (if n == Name(One) || n == Name(Two) then Off else Red)
    ensures led'.active == led.active && led'.hardware == led.hardware && led'.strip == led.strip
    ensures |led'.pixels| == |led.pixels|
    ensures Driving(led) ==> forall i :: 0 <= i < |led'.pixels| ==> led'.pixels[i] == ColorOff
    ensures !Driving(led) ==> led'.pixels == led.pixels
  {
    var pixels := if Driving(led) then seq(|led.pixels|, _ => ColorOff) else led.pixels;
    led.(table := map[Name(One) := Off, Name(Two) := Off], pixels := pixels)
  }

  /** Activates the output (creating the strip on hardware, whose buffer
      starts dark) and commands both directions Red. */
  function Start(led: Led): (led': Led)
    ensures led'.active && led'.hardware == led.hardware
    ensures led'.strip == (led.strip || led.hardware)
    ensures GetState(led', Name(One)) == Red && GetState(led', Name(Two)) == Red
    ensures forall n :: n != Name(One) && n != Name(Two) ==> GetState(led', n) == GetState(led, n)
    ensures Driving(led') && 6 <= |led'.pixels| ==>
              && ShowsOnly(led'.pixels, 0, RedLamp, ColorRed)
              && ShowsOnly(led'.pixels, 3, RedLamp, ColorRed)
  {
    NamesDistinct();
    var pixels := if led.hardware then seq(|led.pixels|, _ => ColorOff) else led.pixels;
    var l := led.(strip := led.strip || led.hardware, active := true, pixels := pixels);
    var l1 := SetRed(l, Name(One));
    var l2 := SetRed(l1, Name(Two));
    assert Driving(l2) && 6 <= |l2.pixels| ==> ShowsOnly(l2.pixels, 0, RedLamp, ColorRed) by {
      if Driving(l2) && 6 <= |l2.pixels| {
        assert LampBase(Name(Two)) == 3;
        assert l2.pixels[0] == l1.pixels[0] && l2.pixels[1] == l1.pixels[1] && l2.pixels[2] == l1.pixels[2];
      }
    }
    l2
  }

  /** Turns everything off (every pixel dark on a driven strip) and
      deactivates, but only when active. */
  function Stop(led: Led): (led': Led)
    ensures !led'.active
    ensures led.active ==> GetState(led', Name(One)) == Off && GetState(led', Name(Two)) == Off
    ensures !led.active ==> led' == led
    ensures led.active && Driving(led) ==> forall i :: 0 <= i < |led'.pixels| ==> led'.pixels[i] == ColorOff
    ensures |led'.pixels| == |led.pixels|
  {
    if led.active then TurnOffAll(led).(active := false) else led
  }

  /** A second `Stop` changes nothing. */
  lemma StopIdempotent(led: Led)
    ensures Stop(Stop(led)) == Stop(led)
  {
  }
}

=== FILE: wrappers.dfy ===
/** The optional-value type used for the controller's nullable fields. */
module Wrappers {

  /** `None` plays the role of the source's `None`; `Some(v)` holds a value. */
  datatype Option<+T> = None | Some(value: T)
}
